=== FILE: README.md ===
# Pairwise song ranking: match selection, result bookkeeping and the Spotify client

This project models the decision and bookkeeping logic of a backend that ranks
the songs of a Spotify playlist from repeated head-to-head comparisons:

- **Match selection** (`matchmaking`, module `Matchmaking`): refuse playlists
  with fewer than two songs, draw song A, build the candidate list of every
  other song with a similarity weight `EPSILON + exp(-(Δrating)² / (2·devA²))`,
  and draw song B by weighted index.
- **Result bookkeeping** (`matchmaking_result`, module `MatchResult`): map the
  reported winner to WIN, LOSS or 400, ask Glicko-2 for both new rating
  triples, and write them with two `UPDATE` statements that also add one to
  `total_matches`.
- **Spotify client** (modules `SpotifySession` and `SpotifyCatalog`): token
  expiry and refresh, the authenticated GET and its mapping of failures to
  `SpotifyError`, the page loop of `get_playlists` / `get_playlist_tracks`,
  item mapping with the first-image fallback, and `get_tracks`.

Everything is pure: the database is a sequence of rows, and everything the
handlers obtain from outside is a parameter:

- the random draws are `aPick` and `bPick`;
- `exp(-x)` is `decay`, known only to be non-negative and non-increasing;
- Glicko-2 is `glicko2`;
- database statement failures are `faults`;
- the clock is `now`;
- the token endpoint's answer is `exchange`;
- the API's answers are `reply` / `replies` / `fetched`.

Floating-point numbers are modelled as `real`. The one IEEE behaviour kept is
a zero deviation for song A. Then `-0/0` is NaN, so a candidate rated like A
gets a NaN weight and the weighted index refuses to build. Every other
candidate gets `-d/0 = -∞`, and `exp(-∞) = 0`, so its weight is exactly
`EPSILON`. `Matchmaking.Matchmaking` answers 500 exactly in that case.

Files: `wrappers.dfy` (`Option`, `Result`), `http.dfy` (status codes), `matchmaking.dfy`,
`match_result.dfy`, `spotify_session.dfy`, `spotify_catalog.dfy`.

Three points about the handlers as the code has them:

- The two `UPDATE`s of `matchmaking_result`
  (backend/src/routes/matchmaking.rs:158-178) are separate statements with no
  transaction, so a failure of the second leaves song A rated and song B not.
  `MatchResult.SettleRows` states this half-applied outcome.
- A missing row makes `fetch_one` fail, and the handler answers 500; there is
  no dedicated "unknown item" answer.
- `backend/src/routes/mod.rs` does not mount the matchmaking router. The model
  treats the handlers as written.

## Model

| member | source | states |
|---|---|---|
| `Matchmaking.WeightOf` | backend/src/routes/matchmaking.rs:73-74 | A weight is a number of at least EPSILON, or NaN exactly when A's deviation is 0 and the candidate's rating equals A's; with deviation 0 any other candidate weighs exactly EPSILON |
| `Matchmaking.CandidatesAreTheOthers` | backend/src/routes/matchmaking.rs:65-77 | The candidate list has n-1 entries, contains exactly the indices in [0, n) other than A's, and is strictly ascending |
| `Matchmaking.WeightsAtLeastEpsilon` | backend/src/routes/matchmaking.rs:73-75 | One weight per candidate, and with a non-zero deviation every weight is a number of at least EPSILON > 0 |
| `Matchmaking.BuildCandidates` | backend/src/routes/matchmaking.rs:65-77 | The loop yields every index except A's, ascending, one per position, with the weight at each position being that candidate's similarity weight |
| `Matchmaking.NewWeightedIndex` | backend/src/routes/matchmaking.rs:84 | The index is built exactly when the list is non-empty, every weight is a non-negative number and one is positive; otherwise an empty list is InvalidInput and a NaN or negative weight InvalidWeight; a built index keeps the given weights, one per candidate |
| `Matchmaking.WeightedIndexFailsIffDegenerate` | backend/src/routes/matchmaking.rs:84 | With n ≥ 2 the weighted index fails exactly when A's deviation is 0 and another row shares A's rating; otherwise every candidate weight is positive, so every candidate can be drawn |
| `Matchmaking.Matchmaking` | backend/src/routes/matchmaking.rs:50-88 | 400 exactly when fewer than 2 rows; 500 exactly in the degenerate zero-deviation case; otherwise A is the drawn index, B is the drawn candidate, both lie in [0, n) and B ≠ A; with 2 rows B is the other row |
| `Matchmaking.CloserIsHeavier` | backend/src/routes/matchmaking.rs:63-74 | A candidate whose rating is at least as close to A's weighs at least as much |
| `Matchmaking.StrictlyCloserIsStrictlyHeavier` | backend/src/routes/matchmaking.rs:73-74 | With a strictly decreasing exp, a strictly closer candidate weighs strictly more |
| `Matchmaking.WeightsRiseTowardsA` | backend/src/routes/matchmaking.rs:43-74 | On rows in the query's rating-descending order, a row lying between another row and A weighs at least as much as that row |
| `Matchmaking.EqualRatingOutweighsDistantRating` | backend/src/routes/matchmaking.rs:68-77 | For ratings 2000, 1000, 1000 with A the first 1000, the other 1000 outweighs the 2000 |
| `MatchResult.FetchOne` | backend/src/routes/matchmaking.rs:128-144 | The rating read is absent exactly when no row has the song id, and otherwise is the triple of a row with that id |
| `MatchResult.UpdateRows` | backend/src/routes/matchmaking.rs:158-167 | One UPDATE gives every addressed row the new triple and one more match and keeps its identity; every other row is unchanged |
| `MatchResult.OutcomeOf` | backend/src/routes/matchmaking.rs:146-152 | WIN iff the winner is song A; LOSS iff it is not A but is B; 400 iff it is neither |
| `MatchResult.Settle` | backend/src/routes/matchmaking.rs:128-180 | The table keeps its length, a refusal is 400 or 500, and a failed SELECT or first UPDATE leaves the table unchanged |
| `MatchResult.SettleAnswers` | backend/src/routes/matchmaking.rs:128-180 | 400 iff both rows are read and the winner is neither side; success iff no statement fails and both rows and a valid winner exist; every other answer is 500 |
| `MatchResult.SettleRows` | backend/src/routes/matchmaking.rs:158-178 | On success each A row gets A's triple and each B row B's, each +1 match with its row id, song and playlist kept, others unchanged; when A and B are one song its rows get B's triple and +2 matches; a failed request changes nothing except when the second UPDATE fails, and when only it fails (both rows found, valid winner) the answer is 500 with exactly A's rows rated |
| `MatchResult.ApplyResultAsWritten` | backend/src/routes/matchmaking.rs:114-181 | The handler as written: the answers and row effects of `SettleRows`/`SettleAnswers`, including the half-applied 500 when only the second UPDATE fails, with rows addressed by song id in every playlist and the double update of a self-match |
| `MatchResult.SelfMatchCountsTwice` | backend/src/routes/matchmaking.rs:146-178 | A report naming one song as A, B and winner succeeds, adds 2 matches to that song's row and leaves it with the losing side's triple |
| `MatchResult.OtherPlaylistRowIsRated` | backend/src/routes/matchmaking.rs:158-178 | A result reported for two songs rates the winner's row in another playlist too |
| `MatchResult.PlaylistSettleEffects` | backend/src/routes/matchmaking.rs:158-178 | Scoped to one playlist, a match of two different songs leaves other playlists' rows unchanged, changes any row's match count by at most one, and on success by exactly one for each participant row |
| `MatchResult.ApplyResult` | backend/src/routes/matchmaking.rs:114-181 | Corrected handler: 400 exactly for a self-match or, once both rows of the playlist are read, an invalid winner; any other refusal is 500; a self-match changes nothing; rows of other playlists never change; on success each participant row of the playlist gets Glicko-2's triple for its side and exactly one more match with its row id kept, and every other row is unchanged; a failure changes nothing unless the second UPDATE fails, and when only it fails A's rows are rated and the answer is 500 |
| `MatchResult.UpdateRowsAddsOnePerRow` | backend/src/routes/matchmaking.rs:158-167 | One UPDATE raises the table's total match count by exactly the number of rows it addresses |
| `MatchResult.UpdateRowsKeepsOtherCounts` | backend/src/routes/matchmaking.rs:169-178 | Updating one song's rows does not change how many rows the other song's UPDATE addresses |
| `MatchResult.SettledMatchAddsOnePerRow` | backend/src/routes/matchmaking.rs:158-178 | For two different songs whose rows both exist in the playlist, the corrected handler succeeds and raises the total match count by exactly one per participant row: no lost update, no double count |
| `SpotifySession.ExpiryPersists` | backend/src/spotify.rs:149-151 | `is_expired` holds from the expiry instant on: a session expired at one instant is expired at every later one |
| `SpotifySession.Refresh` | backend/src/spotify.rs:153-195 | No-op returning Ok while not expired; otherwise sends the current refresh token; on a failed exchange nothing changes, nothing is written and the answer is 500; on success the new access token and expiry are adopted, the refresh token is the response's if present and the old one otherwise, a row update is always issued and carries the same tokens and lifetime as memory; the answer is Ok iff the write succeeds |
| `SpotifySession.RefreshedSessionIsFresh` | backend/src/spotify.rs:149-156 | After a refresh that got a token valid for a positive time, the session is not expired and a further refresh leaves it unchanged |
| `SpotifySession.RefreshNeverInventsToken` | backend/src/spotify.rs:174-180 | The refresh token held after a refresh is the old one or the one the endpoint returned |
| `SpotifySession.ClassifyStatus` | backend/src/spotify.rs:221-229 | 401 maps to InvalidToken and nothing else does; 429 to RateLimited and nothing else does; every other status s to Other(s); a missing status to Other(500); never BadOauthRequest |
| `SpotifySession.Get` | backend/src/spotify.rs:198-239 | BadOauthRequest exactly when the token was expired and its refresh failed; a request is sent exactly when it was not; the request carries the current access token; an error status is classified (401 InvalidToken, 429 RateLimited, any other s as Other(s)); a send failure or an unparsable body is Other(500); success exactly for a non-error answer whose body parses, yielding that body |
| `SpotifyCatalog.FirstImageUrl` | backend/src/spotify.rs:252-257 | The image URL is the first image's URL when there is one and the empty string otherwise |
| `SpotifyCatalog.PlaylistOf` | backend/src/spotify.rs:247-259 | A playlist keeps href, id and name and takes the first-image-or-empty URL |
| `SpotifyCatalog.TrackOf` | backend/src/spotify.rs:312-327 | A track keeps href, id, name and artists and takes the album's first-image-or-empty URL |
| `SpotifyCatalog.FirstStop` | backend/src/spotify.rs:244-261 | The stop position is the first reply that is an error or has no next link; every reply before it is a page with a next link |
| `SpotifyCatalog.GatheredOnePerItem` | backend/src/spotify.rs:247-259 | The collected list has exactly one entry per item of the pages fetched |
| `SpotifyCatalog.GatheredPrefix` | backend/src/spotify.rs:244-261 | Items of earlier pages precede items of later pages: collecting more pages only appends |
| `SpotifyCatalog.RequestedFromFollowsNextLinks` | backend/src/spotify.rs:243-261 | The page-by-page list of requested URLs starts at the first URL, has one entry per page up to the stop, and each later entry is the previous page's next link |
| `SpotifyCatalog.FetchPages` | backend/src/spotify.rs:241-263 | The loop stops exactly at the first page without a next link or the first error; it returns that error, or the concatenation in fetch order of the converted items of the pages up to the stop; it requests the start URL first and then each page's next link |
| `SpotifyCatalog.GetPlaylists` | backend/src/spotify.rs:241-263 | Requests exactly `RequestedFrom` of the user's playlist listing (that URL, then each page's next link); collects the mapped playlists of every page in order, or aborts with the error of the first failed page |
| `SpotifyCatalog.GetPlaylistTracks` | backend/src/spotify.rs:265-296 | Requests exactly `RequestedFrom` of the playlist's track listing (that URL, then each page's next link); collects the mapped tracks of every page in order, or aborts with the error of the first failed page |
| `SpotifyCatalog.Join` | backend/src/spotify.rs:307 | The comma-joined id list; it carries no contract of its own, and its round trip with `Split` is `SpotifyCatalog.SplitJoin` |
| `SpotifyCatalog.SplitJoin` | backend/src/spotify.rs:307 | Splitting the comma-joined ids at commas gives back the ids, in order, when no id contains a comma |
| `SpotifyCatalog.GetTracks` | backend/src/spotify.rs:298-328 | No ids: no request and an empty list; otherwise one request for the ids joined by commas, the fetch's error passed on, or one mapped track per returned track |
| `SpotifyCatalog.TracksUrlCarriesIds` | backend/src/spotify.rs:303-308 | The ids can be read back from the request URL in input order |

## Left out

- HTTP, JSON and SQL plumbing is left out: reqwest calls, serde decoding, sqlx connection handling and logging. Their outcomes are the parameters listed above.
- `Spotify::from_response`, the session-cookie extractor (`FromRequestParts`) and the OAuth routes are left out. They are I/O glue with no decision logic beyond an upsert.
- Playlist reconciliation of stored songs against playlist membership is not part of this model. None of the modelled files contains it.
- Randomness is left out: `random_range` and the weighted sampler are the injected draws `aPick` and `bPick`. `Matchmaking.NewWeightedIndex` models `WeightedIndex::new` by its validity rule: non-empty, no NaN or negative weight, not all zero. Its `Overflow` error (a weight sum that is not finite) is not modelled, since weights are reals.
- Floating point is modelled as `real`, apart from the zero-deviation NaN/∞ case. Rounding, overflow of the squared distance and underflow of `deviation²` are not modelled.
- Matchmaking.CloserIsHeavier: states only "at least as heavy", because `exp` is the abstract non-increasing `decay`. The strict version needs a strictly decreasing `decay`, and holds under that assumption.
- Glicko-2 is the opaque parameter `glicko2`. No property of the new ratings is claimed, so rating monotonicity for the winner is not claimed either.
- Matchmaking.Matchmaking: the selection query's own failure (500) is not modelled, since the rows are given. Building the response from `get_tracks` (`songs[0]`, `songs[1]`, 401 on failure) is also left out: it relies on Spotify returning tracks in request order.
- MatchResult.FetchOne: when several rows share a song id, `fetch_one` takes whichever row the database returns first. The model takes the first in table order.
- SpotifyCatalog.Join: carries no contract of its own; what `get_tracks` relies on, that the ids can be read back, is `SpotifyCatalog.SplitJoin`.
- SpotifySession.IsExpired is stated through `SpotifySession.ExpiryPersists` and its use in `Refresh` and `Get`; as a one-comparison predicate it carries no contract of its own.
- The width of `total_matches` is not modelled (an integer overflow would be a database error). Neither is the interleaving of concurrent requests.
- SpotifySession.Refresh: uses one clock reading `now` for both the expiry check and the new expiry. The `expires_in as i64` cast, chrono's range limits and the database's own `NOW()` in the stored expiry are not modelled; the row records `expires_in`.
- SpotifyCatalog.FetchPages: each page fetch is given as the result of `get`. The token refreshes those calls may perform are not threaded through the pages. A chain of next links longer than the modelled replies ends as `Exhausted`, where the real loop would keep fetching.

## Findings

| source | as written | input that shows it | evidently intended | confidence | as-written member | corrected member |
|---|---|---|---|---|---|---|
| backend/src/routes/matchmaking.rs:146-178 | A report whose song A, song B and winner are one song is accepted. Both UPDATEs hit that song's rows, so it gains two matches and keeps the losing side's triple. | one row with song id "x"; report song_a = song_b = winner = "x" | refuse such a report with 400; each participant gains exactly one match | medium, not executed | MatchResult.SelfMatchCountsTwice | MatchResult.ApplyResult |
| backend/src/routes/matchmaking.rs:158-178 | The SELECTs and UPDATEs filter on `song_id` only, so a result rates that song in every playlist that contains it. | rows (x, "mine"), (y, "mine"), (x, "theirs"); report x vs y, winner x | restrict the statements to the playlist of the request path | medium, not executed | MatchResult.OtherPlaylistRowIsRated | MatchResult.ApplyResult |

=== FILE: http.dfy ===
/**
 HTTP status codes, as the handlers and the Spotify client pass them around.
 */
module Http {

  /** A status code as the `http` crate admits it: a three-digit number. */
  type StatusCode = c: int | 100 <= c <= 999 witness 500

  const BadRequest: StatusCode := 400
  const Unauthorized: StatusCode := 401
  const TooManyRequests: StatusCode := 429
  const InternalServerError: StatusCode := 500

  /** What reqwest's `error_for_status` turns into an error: a 4xx or 5xx status. */
  predicate IsErrorStatus(c: StatusCode) {
    400 <= c <= 599
  }
}

=== FILE: match_result.dfy ===
/**
 Result bookkeeping of the `matchmaking_result` handler
 (backend/src/routes/matchmaking.rs).

 The `songs` table is a sequence of rows. The handler reads each side's
 rating triple with `fetch_one`, maps the reported winner to an outcome,
 asks Glicko-2 for the two new triples, and writes them with two separate
 `UPDATE` statements that also add 1 to `total_matches`. Glicko-2 is the
 parameter `glicko2`, and which database statements fail for reasons of
 their own (connection loss and the like) is the parameter `faults`.

 `ApplyResultAsWritten` is the handler as it stands: rows are matched on
 `song_id` alone, and a report whose two sides name the same song is
 accepted. `ApplyResult` is the handler with both corrected.
 */
module MatchResult {
  import opened Wrappers
  import opened Http
  import opened Matchmaking

  /** skillratings' `Glicko2Rating`: the columns the handler reads and writes. */
  datatype Rating = Rating(rating: real, deviation: real, volatility: real)

  /** skillratings' `Outcomes`, from song A's side. */
  datatype Outcome = Win | Loss

  /** The JSON body of the result request. */
  datatype MatchReport = MatchReport(songA: string, songB: string, winner: string)

  /** Which database statements fail on their own account. */
  datatype Faults = Faults(selectA: bool, selectB: bool, updateA: bool, updateB: bool)

  const NoFaults := Faults(false, false, false, false)

  /** Which rows a statement addresses: by `song_id` alone, or within one playlist. */
  datatype Scope = AnyPlaylist | InPlaylist(playlistId: string)

  /** What the handler answers and the table it leaves behind. */
  datatype Applied = Applied(status: Result<(), StatusCode>, table: seq<Song>)

  predicate InScope(row: Song, scope: Scope, songId: string) {
    && row.songId == songId
    && (scope.InPlaylist? ==> row.playlistId == scope.playlistId)
  }

  function RatingOf(row: Song): Rating {
    Rating(row.rating, row.deviation, row.volatility)
  }

  /**
   `SELECT rating, deviation, volatility FROM songs WHERE song_id = $1` with
   `fetch_one`: no row is an error, and of several rows one is taken (here the
   first in table order).
   */
  function FetchOne(table: seq<Song>, scope: Scope, songId: string): (r: Option<Rating>)
    ensures r.None? <==> forall i :: 0 <= i < |table| ==> !InScope(table[i], scope, songId)
    ensures r.Some? ==> exists i :: 0 <= i < |table| && InScope(table[i], scope, songId) && RatingOf(table[i]) == r.value
    decreases |table|
  {
    if |table| == 0 then None
    else if InScope(table[0], scope, songId) then Some(RatingOf(table[0]))
    else
      var r := FetchOne(table[1..], scope, songId);
      if r.Some? then
        var i :| 0 <= i < |table[1..]| && InScope(table[1..][i], scope, songId) && RatingOf(table[1..][i]) == r.value;
        assert table[i + 1] == table[1..][i];
        r
      else r
  }

  /** A row after one `UPDATE ... total_matches = total_matches + 1` has hit it. */
  function Rated(row: Song, next: Rating): Song {
    row.(rating := next.rating, deviation := next.deviation, volatility := next.volatility,
         totalMatches := row.totalMatches + 1)
  }

  /**
   One `UPDATE songs SET rating = $1, deviation = $2, volatility = $3,
   total_matches = total_matches + 1 WHERE song_id = $4` statement.
   */
  function UpdateRows(table: seq<Song>, scope: Scope, songId: string, next: Rating): (t: seq<Song>)
    ensures |t| == |table|
    ensures forall i :: 0 <= i < |table| && InScope(table[i], scope, songId) ==>
      && RatingOf(t[i]) == next
      && t[i].totalMatches == table[i].totalMatches + 1
      && t[i].rowId == table[i].rowId && t[i].songId == table[i].songId && t[i].playlistId == table[i].playlistId
    ensures forall i :: 0 <= i < |table| && !InScope(table[i], scope, songId) ==> t[i] == table[i]
    decreases |table|
  {
    if |table| == 0 then []
    else
      var rest := UpdateRows(table[1..], scope, songId, next);
      [if InScope(table[0], scope, songId) then Rated(table[0], next) else table[0]] + rest
  }

  /** The winner is song A, else song B, else the request is refused. */
  function OutcomeOf(report: MatchReport): (r: Result<Outcome, StatusCode>)
    ensures r == Success(Win) <==> report.winner == report.songA
    ensures r == Success(Loss) <==> report.winner != report.songA && report.winner == report.songB
    ensures r == Failure(BadRequest) <==> report.winner != report.songA && report.winner != report.songB
    ensures r.Failure? ==> r.error == BadRequest
  {
    if report.winner == report.songA then Success(Win)
    else if report.winner == report.songB then Success(Loss)
    else Failure(BadRequest)
  }

  /**
   The two new triples Glicko-2 produces for the report, when both rows are
   found and the winner is valid.
   */
  function Rerated(glicko2: (Rating, Rating, Outcome) -> (Rating, Rating), table: seq<Song>, scope: Scope, report: MatchReport): Option<(Rating, Rating)> {
    var a := FetchOne(table, scope, report.songA);
    var b := FetchOne(table, scope, report.songB);
    var outcome := OutcomeOf(report);
    if a.Some? && b.Some? && outcome.Success? then Some(glicko2(a.value, b.value, outcome.value)) else None
  }

  /** The body of the handler: read A, read B, map the winner, rate, update A, update B. */
  function Settle(glicko2: (Rating, Rating, Outcome) -> (Rating, Rating), table: seq<Song>, scope: Scope, report: MatchReport, faults: Faults): (r: Applied)
    ensures |r.table| == |table|
    ensures r.status.Failure? ==> r.status.error == BadRequest || r.status.error == InternalServerError
    ensures faults.selectA || faults.selectB || faults.updateA ==> r.table == table
  {
    var a := FetchOne(table, scope, report.songA);
    if faults.selectA || a.None? then Applied(Failure(InternalServerError), table)
    else
      var b := FetchOne(table, scope, report.songB);
      if faults.selectB || b.None? then Applied(Failure(InternalServerError), table)
      else
        match OutcomeOf(report)
        case Failure(e) => Applied(Failure(e), table)
        case Success(outcome) =>
          var (nextA, nextB) := glicko2(a.value, b.value, outcome);
          if faults.updateA then Applied(Failure(InternalServerError), table)
          else
            var afterA := UpdateRows(table, scope, report.songA, nextA);
            if faults.updateB then Applied(Failure(InternalServerError), afterA)
            else Applied(Success(()), UpdateRows(afterA, scope, report.songB, nextB))
  }

  /**
   The effect of a settled match on one row: a row of song A gets A's new
   triple, a row of song B gets B's, each one more match; any other row is
   left as it was.
   */
  ghost predicate SettledRow(before: Song, after: Song, scope: Scope, report: MatchReport, next: (Rating, Rating)) {
    if InScope(before, scope, report.songA) then
      RatingOf(after) == next.0 && after.totalMatches == before.totalMatches + 1
      && after.rowId == before.rowId && after.songId == before.songId && after.playlistId == before.playlistId
    else if InScope(before, scope, report.songB) then
      RatingOf(after) == next.1 && after.totalMatches == before.totalMatches + 1
      && after.rowId == before.rowId && after.songId == before.songId && after.playlistId == before.playlistId
    else after == before
  }

  /**
   The effect of a settled match whose two sides name one song: both
   `UPDATE`s hit that song's rows, which end with B's new triple and two
   more matches; any other row is left as it was.
   */
  ghost predicate SelfSettledRow(before: Song, after: Song, scope: Scope, report: MatchReport, next: (Rating, Rating)) {
    if InScope(before, scope, report.songA) then
      RatingOf(after) == next.1 && after.totalMatches == before.totalMatches + 2
      && after.rowId == before.rowId && after.songId == before.songId && after.playlistId == before.playlistId
    else after == before
  }

  /**
   What `Settle` answers: 400 only for an invalid winner once both rows are
   read, success exactly when no statement fails and both rows and a valid
   winner exist, and 500 for everything else.
   */
  lemma SettleAnswers(glicko2: (Rating, Rating, Outcome) -> (Rating, Rating), table: seq<Song>, scope: Scope, report: MatchReport, faults: Faults)
    ensures
      var r := Settle(glicko2, table, scope, report, faults);
      && (r.status == Failure(BadRequest) <==>
          && !faults.selectA && !faults.selectB
          && FetchOne(table, scope, report.songA).Some? && FetchOne(table, scope, report.songB).Some?
          && report.winner != report.songA && report.winner != report.songB)
      && (r.status.Failure? ==> r.status.error in {BadRequest, InternalServerError})
      && (r.status.Success? <==> faults == NoFaults && Rerated(glicko2, table, scope, report).Some?)
  {
  }

  /**
   What `Settle` does to the table: on success each row of song A gets A's
   new triple and each row of song B gets B's, each one more match, and every
   other row is unchanged; when both sides name one song, its rows are hit
   twice. A failed request changes nothing, except that a failure of the
   second `UPDATE` alone leaves exactly song A's rows rated.
   */
  lemma SettleRows(glicko2: (Rating, Rating, Outcome) -> (Rating, Rating), table: seq<Song>, scope: Scope, report: MatchReport, faults: Faults)
    ensures
      var r := Settle(glicko2, table, scope, report, faults);
      && |r.table| == |table|
      && (r.status.Success? && report.songA != report.songB ==>
          && Rerated(glicko2, table, scope, report).Some?
          && forall i :: 0 <= i < |table| ==>
               SettledRow(table[i], r.table[i], scope, report, Rerated(glicko2, table, scope, report).value))
      && (r.status.Success? && report.songA == report.songB ==>
          && Rerated(glicko2, table, scope, report).Some?
          && forall i :: 0 <= i < |table| ==>
               SelfSettledRow(table[i], r.table[i], scope, report, Rerated(glicko2, table, scope, report).value))
      && (r.status.Failure? && !(faults.updateB && !faults.updateA) ==> r.table == table)
      && (r.status.Failure? && r.table != table ==>
          && !faults.updateA && faults.updateB
          && Rerated(glicko2, table, scope, report).Some?
          && r.table == UpdateRows(table, scope, report.songA, Rerated(glicko2, table, scope, report).value.0))
      && (Rerated(glicko2, table, scope, report).Some? && faults == Faults(false, false, false, true) ==>
          && r.status == Failure(InternalServerError)
          && r.table == UpdateRows(table, scope, report.songA, Rerated(glicko2, table, scope, report).value.0))
  {
    var r := Settle(glicko2, table, scope, report, faults);
    if r.status.Success? && report.songA != report.songB {
      var next := Rerated(glicko2, table, scope, report).value;
      var afterA := UpdateRows(table, scope, report.songA, next.0);
      assert r.table == UpdateRows(afterA, scope, report.songB, next.1);
      forall i | 0 <= i < |table|
        ensures SettledRow(table[i], r.table[i], scope, report, next)
      {
        if InScope(table[i], scope, report.songA) {
          assert !InScope(afterA[i], scope, report.songB);
        }
      }
    } else if r.status.Success? {
      var next := Rerated(glicko2, table, scope, report).value;
      var afterA := UpdateRows(table, scope, report.songA, next.0);
      assert r.table == UpdateRows(afterA, scope, report.songB, next.1);
      forall i | 0 <= i < |table|
        ensures SelfSettledRow(table[i], r.table[i], scope, report, next)
      {
        if InScope(table[i], scope, report.songA) {
          assert InScope(afterA[i], scope, report.songB);
        }
      }
    }
  }

  /**
   `matchmaking_result` as written. Both statements key on `song_id` alone, so
   every row of that song, in any playlist, is rated; the two updates are
   separate, so a failure of the second leaves only song A's rows rated.
   */
  function ApplyResultAsWritten(glicko2: (Rating, Rating, Outcome) -> (Rating, Rating), table: seq<Song>, report: MatchReport, faults: Faults): (r: Applied)
    ensures r.status == Failure(BadRequest) <==>
      && !faults.selectA && !faults.selectB
      && FetchOne(table, AnyPlaylist, report.songA).Some? && FetchOne(table, AnyPlaylist, report.songB).Some?
      && report.winner != report.songA && report.winner != report.songB
    ensures r.status.Failure? ==> r.status.error in {BadRequest, InternalServerError}
    ensures r.status.Success? <==> faults == NoFaults && Rerated(glicko2, table, AnyPlaylist, report).Some?
    ensures r.status.Success? && report.songA != report.songB ==>
      |r.table| == |table| &&
      forall i :: 0 <= i < |table| ==>
        SettledRow(table[i], r.table[i], AnyPlaylist, report, Rerated(glicko2, table, AnyPlaylist, report).value)
    ensures r.status.Success? && report.songA == report.songB ==>
      |r.table| == |table| &&
      forall i :: 0 <= i < |table| ==>
        SelfSettledRow(table[i], r.table[i], AnyPlaylist, report, Rerated(glicko2, table, AnyPlaylist, report).value)
    ensures r.status.Failure? && !(faults.updateB && !faults.updateA) ==> r.table == table
    ensures r.status.Failure? && r.table != table ==>
      && !faults.updateA && faults.updateB
      && Rerated(glicko2, table, AnyPlaylist, report).Some?
      && r.table == UpdateRows(table, AnyPlaylist, report.songA, Rerated(glicko2, table, AnyPlaylist, report).value.0)
    ensures Rerated(glicko2, table, AnyPlaylist, report).Some? && faults == Faults(false, false, false, true) ==>
      && r.status == Failure(InternalServerError)
      && r.table == UpdateRows(table, AnyPlaylist, report.songA, Rerated(glicko2, table, AnyPlaylist, report).value.0)
  {
    SettleAnswers(glicko2, table, AnyPlaylist, report, faults);
    SettleRows(glicko2, table, AnyPlaylist, report, faults);
    Settle(glicko2, table, AnyPlaylist, report, faults)
  }

  /**
   A report whose sides and winner all name one song is accepted: its rows
   are counted as two matches and keep the triple of the losing side.
   */
  lemma SelfMatchCountsTwice(glicko2: (Rating, Rating, Outcome) -> (Rating, Rating))
    ensures
      var row := Song(1, "x", "p", 1500.0, 350.0, 0.06, 0);
      var r := ApplyResultAsWritten(glicko2, [row], MatchReport("x", "x", "x"), NoFaults);
      && r.status.Success?
      && r.table[0].totalMatches == 2
      && RatingOf(r.table[0]) == glicko2(RatingOf(row), RatingOf(row), Win).1
  {
    var row := Song(1, "x", "p", 1500.0, 350.0, 0.06, 0);
    var next := glicko2(RatingOf(row), RatingOf(row), Win);
    var afterA := UpdateRows([row], AnyPlaylist, "x", next.0);
    assert afterA[0].totalMatches == 1;
    var afterB := UpdateRows(afterA, AnyPlaylist, "x", next.1);
    assert afterB[0].totalMatches == 2;
  }

  /**
   A result reported for one playlist rates the same song's row in another
   playlist too.
   */
  lemma OtherPlaylistRowIsRated(glicko2: (Rating, Rating, Outcome) -> (Rating, Rating))
    ensures
      var table := [
        Song(1, "x", "mine", 1500.0, 350.0, 0.06, 0),
        Song(2, "y", "mine", 1500.0, 350.0, 0.06, 0),
        Song(3, "x", "theirs", 1500.0, 350.0, 0.06, 0)];
      var r := ApplyResultAsWritten(glicko2, table, MatchReport("x", "y", "x"), NoFaults);
      && r.status.Success?
      && r.table[2].playlistId == "theirs"
      && r.table[2].totalMatches == 1
  {
    var table := [
      Song(1, "x", "mine", 1500.0, 350.0, 0.06, 0),
      Song(2, "y", "mine", 1500.0, 350.0, 0.06, 0),
      Song(3, "x", "theirs", 1500.0, 350.0, 0.06, 0)];
    assert InScope(table[0], AnyPlaylist, "x") && InScope(table[1], AnyPlaylist, "y");
    assert InScope(table[2], AnyPlaylist, "x");
  }

  /** Within one playlist, settling a match of two songs touches only that playlist's rows of the two songs. */
  lemma PlaylistSettleEffects(glicko2: (Rating, Rating, Outcome) -> (Rating, Rating), table: seq<Song>, playlistId: string, report: MatchReport, faults: Faults)
    requires report.songA != report.songB
    ensures
      var r := Settle(glicko2, table, InPlaylist(playlistId), report, faults);
      && |r.table| == |table|
      && (forall i :: 0 <= i < |table| && table[i].playlistId != playlistId ==> r.table[i] == table[i])
      && (forall i :: 0 <= i < |table| ==>
          r.table[i].totalMatches == table[i].totalMatches
          || r.table[i].totalMatches == table[i].totalMatches + 1)
      && (r.status.Success? ==> forall i :: 0 <= i < |table| ==>
          r.table[i].totalMatches ==
            table[i].totalMatches +
            (if table[i].playlistId == playlistId && table[i].songId in {report.songA, report.songB} then 1 else 0))
      && (r.status.Success? <==> faults == NoFaults && Rerated(glicko2, table, InPlaylist(playlistId), report).Some?)
  {
    var scope := InPlaylist(playlistId);
    var r := Settle(glicko2, table, scope, report, faults);
    SettleAnswers(glicko2, table, scope, report, faults);
    SettleRows(glicko2, table, scope, report, faults);
    if r.status.Success? {
      var next := Rerated(glicko2, table, scope, report).value;
      forall i | 0 <= i < |table|
        ensures r.table[i].totalMatches ==
          table[i].totalMatches +
          (if table[i].playlistId == playlistId && table[i].songId in {report.songA, report.songB} then 1 else 0)
      {
        assert SettledRow(table[i], r.table[i], scope, report, next);
      }
    } else if r.table != table {
      var next := Rerated(glicko2, table, scope, report).value;
      assert r.table == UpdateRows(table, scope, report.songA, next.0);
    }
  }

  /**
   `matchmaking_result` with its two defects corrected: a report whose two
   sides name the same song is refused, and every statement is restricted to
   the playlist of the request path.
   */
  function ApplyResult(glicko2: (Rating, Rating, Outcome) -> (Rating, Rating), table: seq<Song>, playlistId: string, report: MatchReport, faults: Faults): (r: Applied)
    ensures report.songA == report.songB ==> r == Applied(Failure(BadRequest), table)
    ensures |r.table| == |table|
    ensures forall i :: 0 <= i < |table| && table[i].playlistId != playlistId ==> r.table[i] == table[i]
    ensures forall i :: 0 <= i < |table| ==>
      r.table[i].totalMatches == table[i].totalMatches
      || r.table[i].totalMatches == table[i].totalMatches + 1
    ensures r.status.Success? ==> forall i :: 0 <= i < |table| ==>
      r.table[i].totalMatches ==
        table[i].totalMatches +
        (if table[i].playlistId == playlistId && table[i].songId in {report.songA, report.songB} then 1 else 0)
    ensures r.status.Success? <==>
      report.songA != report.songB && faults == NoFaults && Rerated(glicko2, table, InPlaylist(playlistId), report).Some?
    ensures r.status.Success? ==>
      && Rerated(glicko2, table, InPlaylist(playlistId), report).Some?
      && forall i :: 0 <= i < |table| ==>
           SettledRow(table[i], r.table[i], InPlaylist(playlistId), report, Rerated(glicko2, table, InPlaylist(playlistId), report).value)
    ensures r.status.Failure? && !(faults.updateB && !faults.updateA) ==> r.table == table
    ensures r.status.Failure? && r.table != table ==>
      && !faults.updateA && faults.updateB
      && Rerated(glicko2, table, InPlaylist(playlistId), report).Some?
      && r.table == UpdateRows(table, InPlaylist(playlistId), report.songA, Rerated(glicko2, table, InPlaylist(playlistId), report).value.0)
    ensures (&& report.songA != report.songB
             && Rerated(glicko2, table, InPlaylist(playlistId), report).Some?
             && faults == Faults(false, false, false, true)) ==>
      && r.status == Failure(InternalServerError)
      && r.table == UpdateRows(table, InPlaylist(playlistId), report.songA, Rerated(glicko2, table, InPlaylist(playlistId), report).value.0)
    ensures r.status.Failure? ==> r.status.error in {BadRequest, InternalServerError}
    ensures r.status == Failure(BadRequest) <==>
      || report.songA == report.songB
      || (&& !faults.selectA && !faults.selectB
          && FetchOne(table, InPlaylist(playlistId), report.songA).Some?
          && FetchOne(table, InPlaylist(playlistId), report.songB).Some?
          && report.winner != report.songA && report.winner != report.songB)
  {
    if report.songA == report.songB then Applied(Failure(BadRequest), table)
    else
      PlaylistSettleEffects(glicko2, table, playlistId, report, faults);
      SettleAnswers(glicko2, table, InPlaylist(playlistId), report, faults);
      SettleRows(glicko2, table, InPlaylist(playlistId), report, faults);
      Settle(glicko2, table, InPlaylist(playlistId), report, faults)
  }

  /** The sum of `total_matches` over a table. */
  function TotalMatches(table: seq<Song>): int
    decreases |table|
  {
    if |table| == 0 then 0 else table[0].totalMatches + TotalMatches(table[1..])
  }

  /** The number of rows one statement addresses. */
  function CountInScope(table: seq<Song>, scope: Scope, songId: string): nat
    decreases |table|
  {
    if |table| == 0 then 0
    else (if InScope(table[0], scope, songId) then 1 else 0) + CountInScope(table[1..], scope, songId)
  }

  /** One `UPDATE` adds exactly one match per row it addresses to the table's total. */
  lemma {:induction false} UpdateRowsAddsOnePerRow(table: seq<Song>, scope: Scope, songId: string, next: Rating)
    ensures TotalMatches(UpdateRows(table, scope, songId, next)) == TotalMatches(table) + CountInScope(table, scope, songId)
    ensures CountInScope(UpdateRows(table, scope, songId, next), scope, songId) == CountInScope(table, scope, songId)
    decreases |table|
  {
    if |table| > 0 {
      var t := UpdateRows(table, scope, songId, next);
      UpdateRowsAddsOnePerRow(table[1..], scope, songId, next);
      assert t[1..] == UpdateRows(table[1..], scope, songId, next);
    }
  }

  /** Rows of one song are never rows of another. */
  lemma {:induction false} UpdateRowsKeepsOtherCounts(table: seq<Song>, scope: Scope, songId: string, other: string, next: Rating)
    requires other != songId
    ensures CountInScope(UpdateRows(table, scope, songId, next), scope, other) == CountInScope(table, scope, other)
    decreases |table|
  {
    if |table| > 0 {
      var t := UpdateRows(table, scope, songId, next);
      UpdateRowsKeepsOtherCounts(table[1..], scope, songId, other, next);
      assert t[1..] == UpdateRows(table[1..], scope, songId, next);
    }
  }

  /**
   A settled match of two different songs adds one match per row of each side
   to the table's total: never fewer (a lost update) and never more (a double
   count).
   */
  lemma SettledMatchAddsOnePerRow(glicko2: (Rating, Rating, Outcome) -> (Rating, Rating), table: seq<Song>, playlistId: string, report: MatchReport)
    requires report.songA != report.songB
    requires Rerated(glicko2, table, InPlaylist(playlistId), report).Some?
    ensures ApplyResult(glicko2, table, playlistId, report, NoFaults).status.Success?
    ensures TotalMatches(ApplyResult(glicko2, table, playlistId, report, NoFaults).table) ==
      TotalMatches(table)
      + CountInScope(table, InPlaylist(playlistId), report.songA)
      + CountInScope(table, InPlaylist(playlistId), report.songB)
  {
    var scope := InPlaylist(playlistId);
    var next := Rerated(glicko2, table, scope, report).value;
    var afterA := UpdateRows(table, scope, report.songA, next.0);
    UpdateRowsAddsOnePerRow(table, scope, report.songA, next.0);
    UpdateRowsKeepsOtherCounts(table, scope, report.songA, report.songB, next.0);
    UpdateRowsAddsOnePerRow(afterA, scope, report.songB, next.1);
  }
}

=== FILE: matchmaking.dfy ===
/**
 Pair selection of the `matchmaking` handler (backend/src/routes/matchmaking.rs).

 Song A is drawn uniformly from the playlist's rows; every other row becomes a
 candidate for song B with a similarity weight
 `EPSILON + exp(-(rating - rating_A)^2 / (2 * deviation_A^2))`, and B is drawn
 from the candidates by weighted index. The random draws are parameters
 (`aPick`, `bPick`), and `exp(-x)` is the parameter `decay`, of which the
 model only knows that it is non-negative and non-increasing for `x >= 0`.

 A deviation of zero is kept: in IEEE arithmetic `-0/0` is NaN, so a candidate
 whose rating equals A's gets a NaN weight, which the weighted index refuses;
 any other candidate gets `-d/0 = -infinity`, `exp(-infinity) = 0`, and so
 exactly `EPSILON`.
 */
module Matchmaking {
  import opened Wrappers
  import opened Http

  /** The floor added to every similarity weight (`EPSILON`). */
  const Epsilon: real := 0.0001

  /** A row of the `songs` table, with the columns the selection query reads. */
  datatype Song = Song(
    rowId: int,
    songId: string,
    playlistId: string,
    rating: real,
    deviation: real,
    volatility: real,
    totalMatches: int)

  /** `x => exp(-x)` as far as the model needs it: non-negative and non-increasing on `x >= 0`. */
  ghost predicate IsDecay(decay: real -> real) {
    && (forall x :: 0.0 <= x ==> 0.0 <= decay(x))
    && (forall x, y :: 0.0 <= x <= y ==> decay(y) <= decay(x))
  }

  /** A decay that is strictly decreasing, as `exp(-x)` is. */
  ghost predicate IsStrictDecay(decay: real -> real) {
    && IsDecay(decay)
    && (forall x, y :: 0.0 <= x < y ==> decay(y) < decay(x))
  }

  /** A similarity weight as an `f64` can hold it: a number, or NaN. */
  datatype Weight = Finite(value: real) | NaN

  function Sq(x: real): real {
    x * x
  }

  function Abs(x: real): real {
    if x < 0.0 then -x else x
  }

  lemma SqNonNegative(x: real)
    ensures 0.0 <= Sq(x)
    ensures x != 0.0 ==> 0.0 < Sq(x)
  {
    if x < 0.0 {
      calc { Sq(x); == (-x) * (-x); > 0.0 * (-x); == 0.0; }
    } else if 0.0 < x {
      calc { Sq(x); == x * x; > 0.0 * x; == 0.0; }
    } else {
      assert Sq(x) == 0.0;
    }
  }

  /** The exponent's argument: the squared rating distance, scaled by A's deviation. */
  function Spread(a: Song, s: Song): (x: real)
    requires a.deviation != 0.0
    ensures 0.0 <= x
    ensures s.rating == a.rating ==> x == 0.0
  {
    SqNonNegative(a.deviation);
    SqNonNegative(s.rating - a.rating);
    Sq(s.rating - a.rating) / (2.0 * Sq(a.deviation))
  }

  /** The weight of `s` as a partner for song `a`. */
  function WeightOf(decay: real -> real, a: Song, s: Song): (w: Weight)
    requires IsDecay(decay)
    ensures w.Finite? ==> Epsilon <= w.value
    ensures w.NaN? <==> a.deviation == 0.0 && s.rating == a.rating
    ensures a.deviation == 0.0 && w.Finite? ==> w.value == Epsilon
  {
    if a.deviation == 0.0 then
      if s.rating == a.rating then NaN else Finite(Epsilon)
    else
      Finite(Epsilon + decay(Spread(a, s)))
  }

  /** The index of the `k`-th candidate when song A is at index `a`. */
  function CandidateAt(a: nat, k: nat): (i: nat)
    ensures i != a
  {
    if k < a then k else k + 1
  }

  /** The candidate list `matchmaking` builds for A at `a` among `n` rows. */
  function Candidates(n: nat, a: nat): (cs: seq<nat>)
    requires a < n
  {
    seq(n - 1, k requires 0 <= k => CandidateAt(a, k))
  }

  /** The weight list `matchmaking` builds, aligned with `Candidates`. */
  function Weights(decay: real -> real, songs: seq<Song>, a: nat): (ws: seq<Weight>)
    requires IsDecay(decay)
    requires a < |songs|
  {
    seq(|songs| - 1, k requires 0 <= k < |songs| - 1 => WeightOf(decay, songs[a], songs[CandidateAt(a, k)]))
  }

  /** The candidates are exactly the indices other than A's, ascending, one per position. */
  lemma CandidatesAreTheOthers(n: nat, a: nat)
    requires a < n
    ensures |Candidates(n, a)| == n - 1
    ensures forall i: nat :: i in Candidates(n, a) <==> i < n && i != a
    ensures forall j, k :: 0 <= j < k < n - 1 ==> Candidates(n, a)[j] < Candidates(n, a)[k]
  {
    var cs := Candidates(n, a);
    forall i: nat | i < n && i != a
      ensures i in cs
    {
      var k := if i < a then i else i - 1;
      assert cs[k] == i;
    }
  }

  /** Every weight is a number at least `Epsilon` unless A's deviation is zero. */
  lemma WeightsAtLeastEpsilon(decay: real -> real, songs: seq<Song>, a: nat)
    requires IsDecay(decay)
    requires a < |songs|
    ensures |Weights(decay, songs, a)| == |songs| - 1
    ensures songs[a].deviation != 0.0 ==>
      forall k :: 0 <= k < |songs| - 1 ==> Weights(decay, songs, a)[k].Finite? && Epsilon <= Weights(decay, songs, a)[k].value
  {
  }

  /**
   The errors `WeightedIndex::new` of `rand_distr::weighted` can report
   (its `Overflow` error is not modelled).
   */
  datatype WeightError = InvalidInput | InvalidWeight | InsufficientNonZero

  /**
   `WeightedIndex::new`: refuses an empty list, a NaN or negative weight, and a
   list whose weights are all zero; otherwise yields the weights as the
   distribution to sample from.
   */
  function NewWeightedIndex(ws: seq<Weight>): (r: Result<seq<real>, WeightError>)
    ensures r == Failure(InvalidInput) <==> |ws| == 0
    ensures r == Failure(InvalidWeight) <==>
      0 < |ws| && exists k :: 0 <= k < |ws| && (ws[k].NaN? || ws[k].value < 0.0)
    ensures r.Success? <==>
      && 0 < |ws|
      && (forall k :: 0 <= k < |ws| ==> ws[k].Finite? && 0.0 <= ws[k].value)
      && exists k :: 0 <= k < |ws| && ws[k].Finite? && 0.0 < ws[k].value
    ensures r.Success? ==>
      && |r.value| == |ws|
      && (forall k :: 0 <= k < |ws| ==> ws[k].Finite? && r.value[k] == ws[k].value && 0.0 <= r.value[k])
      && (exists k :: 0 <= k < |ws| && 0.0 < r.value[k])
  {
    if |ws| == 0 then Failure(InvalidInput)
    else if exists k :: 0 <= k < |ws| && (ws[k].NaN? || ws[k].value < 0.0) then Failure(InvalidWeight)
    else if forall k :: 0 <= k < |ws| ==> ws[k].value == 0.0 then Failure(InsufficientNonZero)
    else Success(seq(|ws|, k requires 0 <= k < |ws| => ws[k].value))
  }

  /** A NaN weight is the one way song A's row can make the weighted index fail. */
  ghost predicate Degenerate(songs: seq<Song>, a: nat)
    requires a < |songs|
  {
    && songs[a].deviation == 0.0
    && exists i :: 0 <= i < |songs| && i != a && songs[i].rating == songs[a].rating
  }

  /**
   With at least two rows the weighted index is built unless A's deviation is
   zero and another row shares A's rating; when it is built, every candidate
   has a positive weight, so every candidate position is a possible draw.
   */
  lemma WeightedIndexFailsIffDegenerate(decay: real -> real, songs: seq<Song>, a: nat)
    requires IsDecay(decay)
    requires 2 <= |songs| && a < |songs|
    ensures NewWeightedIndex(Weights(decay, songs, a)).Failure? <==> Degenerate(songs, a)
    ensures NewWeightedIndex(Weights(decay, songs, a)).Success? ==>
      forall k :: 0 <= k < |songs| - 1 ==> 0.0 < NewWeightedIndex(Weights(decay, songs, a)).value[k]
  {
    var ws := Weights(decay, songs, a);
    CandidatesAreTheOthers(|songs|, a);
    if Degenerate(songs, a) {
      var i :| 0 <= i < |songs| && i != a && songs[i].rating == songs[a].rating;
      var k := if i < a then i else i - 1;
      assert ws[k].NaN?;
    } else {
      assert ws[0].value >= Epsilon;
      assert !(forall k :: 0 <= k < |ws| ==> ws[k].value == 0.0);
    }
  }

  /**
   The candidate and weight lists of the `for (idx, song) in songs.iter().enumerate()`
   loop: every index but A's, in order, each with its weight.
   */
  method BuildCandidates(decay: real -> real, songs: seq<Song>, a: nat) returns (weights: seq<Weight>, candidates: seq<nat>)
    requires IsDecay(decay)
    requires a < |songs|
    ensures |candidates| == |songs| - 1 && |weights| == |candidates|
    ensures forall i: nat :: i in candidates <==> i < |songs| && i != a
    ensures forall j, k :: 0 <= j < k < |candidates| ==> candidates[j] < candidates[k]
    ensures forall k :: 0 <= k < |weights| ==>
      candidates[k] < |songs| && weights[k] == WeightOf(decay, songs[a], songs[candidates[k]])
    ensures candidates == Candidates(|songs|, a) && weights == Weights(decay, songs, a)
  {
    weights, candidates := [], [];
    var idx := 0;
    while idx < |songs|
      invariant 0 <= idx <= |songs|
      invariant |candidates| == |weights| == (if idx <= a then idx else idx - 1)
      invariant forall k :: 0 <= k < |candidates| ==> candidates[k] == CandidateAt(a, k)
      invariant forall k :: 0 <= k < |weights| ==> weights[k] == WeightOf(decay, songs[a], songs[CandidateAt(a, k)])
    {
      if idx != a {
        weights := weights + [WeightOf(decay, songs[a], songs[idx])];
        candidates := candidates + [idx];
      }
      idx := idx + 1;
    }
    assert candidates == Candidates(|songs|, a);
    CandidatesAreTheOthers(|songs|, a);
  }

  /** The pair `matchmaking` selects, as indices into the rows the query returned. */
  datatype Pairing = Pairing(a: nat, b: nat)

  /**
   The `matchmaking` handler from the rows of the playlist to the selected pair.
   `aPick` is the uniform draw of A's index and `bPick` the weighted index's
   draw of a candidate position.
   */
  method Matchmaking(decay: real -> real, songs: seq<Song>, aPick: nat, bPick: nat) returns (r: Result<Pairing, StatusCode>)
    requires IsDecay(decay)
    requires 2 <= |songs| ==> aPick < |songs| && bPick < |songs| - 1
    ensures r == Failure(BadRequest) <==> |songs| < 2
    ensures r == Failure(InternalServerError) <==> 2 <= |songs| && Degenerate(songs, aPick)
    ensures r.Failure? ==> r.error in {BadRequest, InternalServerError}
    ensures r.Success? ==> r.value.a == aPick && r.value.b == CandidateAt(aPick, bPick)
    ensures r.Success? ==> r.value.a < |songs| && r.value.b < |songs| && r.value.a != r.value.b
    ensures |songs| == 2 && r.Success? ==> r.value.b == 1 - r.value.a
  {
    if |songs| < 2 {
      return Failure(BadRequest);
    }
    var weights, candidates := BuildCandidates(decay, songs, aPick);
    WeightedIndexFailsIffDegenerate(decay, songs, aPick);
    var dist := NewWeightedIndex(weights);
    if dist.Failure? {
      return Failure(InternalServerError);
    }
    r := Success(Pairing(aPick, candidates[bPick]));
  }

  lemma SqMonotone(x: real, y: real)
    requires Abs(x) <= Abs(y)
    ensures Sq(x) <= Sq(y)
  {
    var ax, ay := Abs(x), Abs(y);
    calc { Sq(x); == ax * ax; <= ax * ay; <= ay * ay; == Sq(y); }
  }

  lemma SqStrictMonotone(x: real, y: real)
    requires Abs(x) < Abs(y)
    ensures Sq(x) < Sq(y)
  {
    var ax, ay := Abs(x), Abs(y);
    calc { Sq(x); == ax * ax; <= ax * ay; < ay * ay; == Sq(y); }
  }

  /** Songs close to A's rating weigh at least as much as songs farther away. */
  lemma CloserIsHeavier(decay: real -> real, a: Song, x: Song, y: Song)
    requires IsDecay(decay)
    requires a.deviation != 0.0
    requires Abs(x.rating - a.rating) <= Abs(y.rating - a.rating)
    ensures WeightOf(decay, a, y).value <= WeightOf(decay, a, x).value
  {
    SqMonotone(x.rating - a.rating, y.rating - a.rating);
    SqNonNegative(a.deviation);
    var c := 2.0 * Sq(a.deviation);
    assert Sq(x.rating - a.rating) / c <= Sq(y.rating - a.rating) / c;
    assert Spread(a, x) <= Spread(a, y);
  }

  /** With a strictly decreasing decay, a strictly closer song weighs strictly more. */
  lemma StrictlyCloserIsStrictlyHeavier(decay: real -> real, a: Song, x: Song, y: Song)
    requires IsStrictDecay(decay)
    requires a.deviation != 0.0
    requires Abs(x.rating - a.rating) < Abs(y.rating - a.rating)
    ensures WeightOf(decay, a, y).value < WeightOf(decay, a, x).value
  {
    SqStrictMonotone(x.rating - a.rating, y.rating - a.rating);
    SqNonNegative(a.deviation);
    var c := 2.0 * Sq(a.deviation);
    assert Sq(x.rating - a.rating) / c < Sq(y.rating - a.rating) / c;
    assert Spread(a, x) < Spread(a, y);
  }

  /** The selection query returns the rows by rating, highest first. */
  ghost predicate ByRatingDescending(songs: seq<Song>) {
    forall i, j :: 0 <= i < j < |songs| ==> songs[j].rating <= songs[i].rating
  }

  /**
   On rows in query order, the weights rise towards A's position from both
   sides: a row between another row and A weighs at least as much.
   */
  lemma WeightsRiseTowardsA(decay: real -> real, songs: seq<Song>, a: nat, far: nat, near: nat)
    requires IsDecay(decay)
    requires ByRatingDescending(songs)
    requires a < |songs| && far < |songs| && near < |songs|
    requires songs[a].deviation != 0.0
    requires far < near < a || a < near < far
    ensures WeightOf(decay, songs[a], songs[far]).value <= WeightOf(decay, songs[a], songs[near]).value
  {
    CloserIsHeavier(decay, songs[a], songs[near], songs[far]);
  }

  /**
   Rows rated 2000, 1000 and 1000 (query order) with A the first 1000-rated
   row: the other 1000-rated row weighs strictly more than the 2000-rated one.
   */
  lemma EqualRatingOutweighsDistantRating(decay: real -> real)
    requires IsStrictDecay(decay)
    ensures
      var songs := [
        Song(1, "s1", "p", 2000.0, 350.0, 0.06, 0),
        Song(2, "s2", "p", 1000.0, 350.0, 0.06, 0),
        Song(3, "s3", "p", 1000.0, 350.0, 0.06, 0)];
      Candidates(3, 1) == [0, 2] &&
      Weights(decay, songs, 1)[0].value < Weights(decay, songs, 1)[1].value
  {
    var songs := [
      Song(1, "s1", "p", 2000.0, 350.0, 0.06, 0),
      Song(2, "s2", "p", 1000.0, 350.0, 0.06, 0),
      Song(3, "s3", "p", 1000.0, 350.0, 0.06, 0)];
    StrictlyCloserIsStrictlyHeavier(decay, songs[1], songs[2], songs[0]);
  }
}

=== FILE: spotify_catalog.dfy ===
/**
 The catalog calls of the Spotify client (backend/src/spotify.rs):
 `get_playlists` and `get_playlist_tracks`, which follow `next` links and
 collect the items of every page, and `get_tracks`, which asks for several
 tracks by a comma-separated id list.

 Each page fetch is one `get`; its outcome (the page, or the `SpotifyError`
 that `get` returned) is an element of the parameter `replies`, consumed in
 order. The session changes those `get` calls make are not threaded through.
 */
module SpotifyCatalog {
  import opened Wrappers
  import opened SpotifySession

  datatype Image = Image(url: string)

  datatype Artist = Artist(name: string, href: string)

  datatype Album = Album(images: seq<Image>)

  /** A playlist as the API returns it. */
  datatype PlaylistResponse = PlaylistResponse(href: string, id: string, name: string, images: seq<Image>)

  /** A track as the API returns it. */
  datatype TrackResponse = TrackResponse(href: string, id: string, name: string, artists: seq<Artist>, album: Album)

  /** An entry of a playlist's track listing. */
  datatype PlaylistTrackObject = PlaylistTrackObject(track: TrackResponse)

  /** The answer of the several-tracks endpoint. */
  datatype TracksResponse = TracksResponse(tracks: seq<TrackResponse>)

  /** A playlist as the backend hands it on. */
  datatype Playlist = Playlist(href: string, id: string, name: string, imageUrl: string)

  /** A track as the backend hands it on. */
  datatype Track = Track(href: string, id: string, name: string, artists: seq<Artist>, imageUrl: string)

  /** `PaginatedResponse`: one page of items and the link to the next page, if any. */
  datatype Page<I> = Page(items: seq<I>, next: Option<string>)

  const PlaylistsUrl := "https://api.spotify.com/v1/me/playlists"
  const TracksUrlPrefix := "https://api.spotify.com/v1/tracks?ids="

  function PlaylistTracksUrl(playlistId: string): string {
    "https://api.spotify.com/v1/playlists/" + playlistId + "/tracks"
  }

  /** The URL of the first image, or the empty string when there is no image. */
  function FirstImageUrl(images: seq<Image>): (url: string)
    ensures |images| == 0 ==> url == ""
    ensures 0 < |images| ==> url == images[0].url
    ensures url == "" <==> |images| == 0 || images[0].url == ""
  {
    if |images| == 0 then "" else images[0].url
  }

  /** The playlist mapping of `get_playlists`: fields carried over, image URL falling back to "". */
  function PlaylistOf(p: PlaylistResponse): (q: Playlist)
    ensures q.href == p.href && q.id == p.id && q.name == p.name
    ensures q.imageUrl == FirstImageUrl(p.images)
  {
    Playlist(p.href, p.id, p.name, FirstImageUrl(p.images))
  }

  /** The track mapping of `get_playlist_tracks` and `get_tracks`: the album's first image, or "". */
  function TrackOf(t: TrackResponse): (u: Track)
    ensures u.href == t.href && u.id == t.id && u.name == t.name && u.artists == t.artists
    ensures u.imageUrl == FirstImageUrl(t.album.images)
  {
    Track(t.href, t.id, t.name, t.artists, FirstImageUrl(t.album.images))
  }

  function PlaylistTrackOf(o: PlaylistTrackObject): Track {
    TrackOf(o.track)
  }

  /** `items.into_iter().map(convert)`: one output per input, in order. */
  function MapSeq<I, O>(convert: I -> O, xs: seq<I>): (ys: seq<O>)
    ensures |ys| == |xs|
    ensures forall i :: 0 <= i < |xs| ==> ys[i] == convert(xs[i])
  {
    seq(|xs|, i requires 0 <= i < |xs| => convert(xs[i]))
  }

  /** A reply after which the loop fetches again: a page with a `next` link. */
  predicate Continues<I>(reply: Result<Page<I>, SpotifyError>) {
    reply.Success? && reply.value.next.Some?
  }

  /** The position of the first reply that ends the loop (an error or a last page), or `|replies|` if none does. */
  function FirstStop<I>(replies: seq<Result<Page<I>, SpotifyError>>): (k: nat)
    ensures k <= |replies|
    ensures forall j :: 0 <= j < k ==> Continues(replies[j])
    ensures k < |replies| ==> !Continues(replies[k])
    decreases |replies|
  {
    if |replies| == 0 || !Continues(replies[0]) then 0
    else 1 + FirstStop(replies[1..])
  }

  /** The converted items of the successful replies, concatenated in fetch order. */
  function Gathered<I, O>(convert: I -> O, replies: seq<Result<Page<I>, SpotifyError>>): seq<O>
    decreases |replies|
  {
    if |replies| == 0 then []
    else
      var last := replies[|replies| - 1];
      Gathered(convert, replies[..|replies| - 1]) + (if last.Success? then MapSeq(convert, last.value.items) else [])
  }

  function ItemCount<I>(replies: seq<Result<Page<I>, SpotifyError>>): nat
    decreases |replies|
  {
    if |replies| == 0 then 0
    else
      var last := replies[|replies| - 1];
      ItemCount(replies[..|replies| - 1]) + (if last.Success? then |last.value.items| else 0)
  }

  /** Collecting yields exactly one output per fetched item. */
  lemma {:induction false} GatheredOnePerItem<I, O>(convert: I -> O, replies: seq<Result<Page<I>, SpotifyError>>)
    ensures |Gathered(convert, replies)| == ItemCount(replies)
    decreases |replies|
  {
    if |replies| > 0 {
      GatheredOnePerItem(convert, replies[..|replies| - 1]);
    }
  }

  /** Collecting a longer run of replies extends the collection of a shorter one. */
  lemma {:induction false} GatheredPrefix<I, O>(convert: I -> O, replies: seq<Result<Page<I>, SpotifyError>>, n: nat)
    requires n <= |replies|
    ensures Gathered(convert, replies[..n]) <= Gathered(convert, replies)
    decreases |replies|
  {
    if n < |replies| {
      var shorter := replies[..|replies| - 1];
      assert replies[..n] == shorter[..n];
      GatheredPrefix(convert, shorter, n);
    } else {
      assert replies[..n] == replies;
    }
  }

  /**
   The URLs a paginated fetch asks for: `start`, then the `next` link of each
   page up to and including the one where it stops.
   */
  ghost predicate FollowsNextLinks<I>(start: string, replies: seq<Result<Page<I>, SpotifyError>>, requested: seq<string>) {
    && |requested| == FirstStop(replies) + 1
    && requested[0] == start
    && forall j :: 0 < j < |requested| ==> replies[j - 1].Success? && replies[j - 1].value.next == Some(requested[j])
  }

  /**
   The URLs the page loop asks for, page by page: `url`, and while the reply
   to it is a page with a `next` link, the URLs from that link on.
   */
  function RequestedFrom<I>(url: string, replies: seq<Result<Page<I>, SpotifyError>>): seq<string>
    decreases |replies|
  {
    if |replies| == 0 || !Continues(replies[0]) then [url]
    else [url] + RequestedFrom(replies[0].value.next.value, replies[1..])
  }

  /** One step of `RequestedFrom` from position `i` of the replies. */
  lemma RequestedFromStep<I>(url: string, replies: seq<Result<Page<I>, SpotifyError>>, i: nat)
    requires i < |replies|
    ensures Continues(replies[i]) ==>
      RequestedFrom(url, replies[i..]) == [url] + RequestedFrom(replies[i].value.next.value, replies[i + 1..])
    ensures !Continues(replies[i]) ==> RequestedFrom(url, replies[i..]) == [url]
  {
    assert replies[i..][1..] == replies[i + 1..];
  }

  /** The page-by-page definition asks for `start` and then exactly the chain of `next` links up to the stop. */
  lemma {:induction false} RequestedFromFollowsNextLinks<I>(start: string, replies: seq<Result<Page<I>, SpotifyError>>)
    ensures FollowsNextLinks(start, replies, RequestedFrom(start, replies))
    decreases |replies|
  {
    if |replies| > 0 && Continues(replies[0]) {
      var rest := RequestedFrom(replies[0].value.next.value, replies[1..]);
      RequestedFromFollowsNextLinks(replies[0].value.next.value, replies[1..]);
      var req := RequestedFrom(start, replies);
      assert req == [start] + rest;
      forall j | 1 < j < |req|
        ensures replies[j - 1].Success? && replies[j - 1].value.next == Some(req[j])
      {
        assert req[j] == rest[j - 1];
        assert replies[1..][j - 2] == replies[j - 1];
      }
    }
  }

  /** How a paginated fetch ends: all items, the first error, or out of modelled replies while a `next` link remains. */
  datatype Collection<O> = Collected(items: seq<O>) | Aborted(error: SpotifyError) | Exhausted

  /**
   The `while let Some(url) = next_url` loop of `get_playlists` and
   `get_playlist_tracks`: fetch `start`, then each page's `next`, until a page
   has none; the first error aborts. `requested` lists the URLs the loop
   asks for, including, when the replies run out, the one it would ask for
   next.
   */
  method FetchPages<I, O>(start: string, convert: I -> O, replies: seq<Result<Page<I>, SpotifyError>>)
    returns (r: Collection<O>, requested: seq<string>)
    ensures r.Exhausted? <==> FirstStop(replies) == |replies|
    ensures r.Aborted? <==> FirstStop(replies) < |replies| && replies[FirstStop(replies)].Failure?
    ensures r.Aborted? ==> r.error == replies[FirstStop(replies)].error
    ensures r.Collected? ==> r.items == Gathered(convert, replies[..FirstStop(replies) + 1])
    ensures FollowsNextLinks(start, replies, requested)
    ensures requested == RequestedFrom(start, replies)
  {
    var items: seq<O> := [];
    var next: Option<string> := Some(start);
    var i := 0;
    requested := [];
    while next.Some? && i < |replies|
      invariant 0 <= i <= |replies|
      invariant forall j :: 0 <= j < i ==> replies[j].Success?
      invariant next.Some? ==> forall j :: 0 <= j < i ==> Continues(replies[j])
      invariant next.Some? && 0 < i ==> next == replies[i - 1].value.next
      invariant next.None? ==> 0 < i && replies[i - 1].value.next.None? && forall j :: 0 <= j < i - 1 ==> Continues(replies[j])
      invariant next.Some? && i == 0 ==> next == Some(start)
      invariant items == Gathered(convert, replies[..i])
      invariant next.Some? ==> requested + RequestedFrom(next.value, replies[i..]) == RequestedFrom(start, replies)
      invariant next.None? ==> requested == RequestedFrom(start, replies)
    {
      RequestedFromStep(next.value, replies, i);
      requested := requested + [next.value];
      match replies[i]
      case Failure(e) =>
        RequestedFromFollowsNextLinks(start, replies);
        return Aborted(e), requested;
      case Success(page) =>
        assert replies[..i + 1][..i] == replies[..i];
        items := items + MapSeq(convert, page.items);
        next := page.next;
      i := i + 1;
    }
    if next.Some? {
      requested := requested + [next.value];
      r := Exhausted;
    } else {
      r := Collected(items);
    }
    RequestedFromFollowsNextLinks(start, replies);
  }

  /** `get_playlists`: every playlist of every page, starting at the user's playlist listing. */
  method GetPlaylists(replies: seq<Result<Page<PlaylistResponse>, SpotifyError>>)
    returns (r: Collection<Playlist>, requested: seq<string>)
    ensures requested == RequestedFrom(PlaylistsUrl, replies)
    ensures r.Exhausted? <==> FirstStop(replies) == |replies|
    ensures r.Aborted? <==> FirstStop(replies) < |replies| && replies[FirstStop(replies)].Failure?
    ensures r.Aborted? ==> r.error == replies[FirstStop(replies)].error
    ensures r.Collected? ==> r.items == Gathered(PlaylistOf, replies[..FirstStop(replies) + 1])
  {
    r, requested := FetchPages(PlaylistsUrl, PlaylistOf, replies);
  }

  /** `get_playlist_tracks`: every track of every page, starting at the playlist's track listing. */
  method GetPlaylistTracks(playlistId: string, replies: seq<Result<Page<PlaylistTrackObject>, SpotifyError>>)
    returns (r: Collection<Track>, requested: seq<string>)
    ensures requested == RequestedFrom(PlaylistTracksUrl(playlistId), replies)
    ensures r.Exhausted? <==> FirstStop(replies) == |replies|
    ensures r.Aborted? <==> FirstStop(replies) < |replies| && replies[FirstStop(replies)].Failure?
    ensures r.Aborted? ==> r.error == replies[FirstStop(replies)].error
    ensures r.Collected? ==> r.items == Gathered(PlaylistTrackOf, replies[..FirstStop(replies) + 1])
  {
    r, requested := FetchPages(PlaylistTracksUrl(playlistId), PlaylistTrackOf, replies);
  }

  /** `join(sep)`: the strings with `sep` between neighbours. */
  function Join(xs: seq<string>, sep: char): string
    decreases |xs|
  {
    if |xs| == 0 then ""
    else if |xs| == 1 then xs[0]
    else xs[0] + [sep] + Join(xs[1..], sep)
  }

  /** The position of the first `c` in `s`, or `|s|`. */
  function IndexOf(s: string, c: char): (i: nat)
    ensures i <= |s|
    ensures i < |s| ==> s[i] == c
    ensures forall j :: 0 <= j < i ==> s[j] != c
    decreases |s|
  {
    if |s| == 0 || s[0] == c then 0 else 1 + IndexOf(s[1..], c)
  }

  /** `split(sep)`: the pieces between occurrences of `sep`, the inverse of `Join`. */
  function Split(s: string, sep: char): (parts: seq<string>)
    ensures 0 < |parts|
    decreases |s|
  {
    var i := IndexOf(s, sep);
    if i == |s| then [s] else [s[..i]] + Split(s[i + 1..], sep)
  }

  /** Splitting a joined list of ids that hold no separator gives back the ids, in order. */
  lemma {:induction false} SplitJoin(xs: seq<string>, sep: char)
    requires 0 < |xs|
    requires forall k :: 0 <= k < |xs| ==> sep !in xs[k]
    ensures Split(Join(xs, sep), sep) == xs
    decreases |xs|
  {
    if |xs| == 1 {
      assert IndexOf(xs[0], sep) == |xs[0]|;
    } else {
      var rest := Join(xs[1..], sep);
      var s := xs[0] + [sep] + rest;
      assert s[|xs[0]|] == sep;
      assert forall j :: 0 <= j < |xs[0]| ==> s[j] == xs[0][j];
      assert IndexOf(s, sep) == |xs[0]|;
      assert s[..|xs[0]|] == xs[0];
      assert s[|xs[0]| + 1..] == rest;
      SplitJoin(xs[1..], sep);
    }
  }

  /** What `get_tracks` did: the URL it requested (if any) and its answer. */
  datatype TracksCall = TracksCall(url: Option<string>, result: Result<seq<Track>, SpotifyError>)

  /**
   `get_tracks`: no ids means no request and no tracks; otherwise one request
   for the ids joined by commas, whose tracks are mapped one for one.
   `fetched` is what `get` returned for that request.
   */
  function GetTracks(ids: seq<string>, fetched: Result<TracksResponse, SpotifyError>): (c: TracksCall)
    ensures |ids| == 0 <==> c.url.None?
    ensures |ids| == 0 ==> c.result == Success([])
    ensures 0 < |ids| ==> c.url == Some(TracksUrlPrefix + Join(ids, ','))
    ensures 0 < |ids| && fetched.Failure? ==> c.result == Failure(fetched.error)
    ensures 0 < |ids| && fetched.Success? ==>
      && c.result.Success?
      && |c.result.value| == |fetched.value.tracks|
      && forall i :: 0 <= i < |c.result.value| ==> c.result.value[i] == TrackOf(fetched.value.tracks[i])
  {
    if |ids| == 0 then TracksCall(None, Success([]))
    else
      var url := TracksUrlPrefix + Join(ids, ',');
      match fetched
      case Failure(e) => TracksCall(Some(url), Failure(e))
      case Success(response) => TracksCall(Some(url), Success(MapSeq(TrackOf, response.tracks)))
  }

  /** The id list of a `get_tracks` request can be read back from its URL, in input order. */
  lemma TracksUrlCarriesIds(ids: seq<string>, fetched: Result<TracksResponse, SpotifyError>)
    requires 0 < |ids|
    requires forall k :: 0 <= k < |ids| ==> ',' !in ids[k]
    ensures
      var url := GetTracks(ids, fetched).url.value;
      && TracksUrlPrefix <= url
      && Split(url[|TracksUrlPrefix|..], ',') == ids
  {
    var url := GetTracks(ids, fetched).url.value;
    assert url[|TracksUrlPrefix|..] == Join(ids, ',');
    SplitJoin(ids, ',');
  }
}

=== FILE: spotify_session.dfy ===
/**
 Token handling and the authenticated GET of the Spotify client
 (backend/src/spotify.rs): `is_expired`, `refresh`, and `get` with its
 mapping of failures to `SpotifyError`.

 The clock is the parameter `now`. The token endpoint's answer is the
 parameter `exchange` (`None` when the request could not be sent or its body
 not parsed). Whether the `UPDATE users` statement succeeds is `writeOk`.
 The API's answer to the GET is `reply`.
 */
module SpotifySession {
  import opened Wrappers
  import opened Http

  /** A point in time, in seconds. */
  type Instant = int

  /** The `Spotify` struct: one user's tokens. */
  datatype Session = Session(accessToken: string, refreshToken: string, expiresAt: Instant, spotifyId: string)

  /** `SpotifyResponse`: the token endpoint's answer; it may omit a new refresh token. */
  datatype TokenResponse = TokenResponse(accessToken: string, refreshToken: Option<string>, expiresIn: nat)

  datatype SpotifyError = InvalidToken | BadOauthRequest | RateLimited | Other(status: StatusCode)

  /** The values `refresh` binds into its `UPDATE users ... WHERE spotify_id = $4`. */
  datatype UserUpdate = UserUpdate(spotifyId: string, accessToken: string, refreshToken: Option<string>, expiresIn: nat)

  /**
   What `refresh` did: the session afterwards, the refresh token it sent to
   the token endpoint (if it asked), the row update it issued (if any), and
   its answer.
   */
  datatype Refreshed = Refreshed(session: Session, sent: Option<string>, write: Option<UserUpdate>, status: Result<(), StatusCode>)

  /** `is_expired`: the token is no longer usable from its expiry instant on. */
  predicate IsExpired(s: Session, now: Instant) {
    now >= s.expiresAt
  }

  /** Once expired, a session stays expired: later clock readings never revive it. */
  lemma ExpiryPersists(s: Session, now: Instant, later: Instant)
    requires IsExpired(s, now) && now <= later
    ensures IsExpired(s, later)
  {
  }

  /**
   `refresh`: nothing to do while the token is valid; otherwise exchange the
   refresh token, adopt the new access token, keep the old refresh token when
   the answer carries none, and store the same values in `users`. The session
   is changed before the row is written, so a failed write still leaves the
   new tokens in memory.
   */
  function Refresh(s: Session, now: Instant, exchange: Option<TokenResponse>, writeOk: bool): (r: Refreshed)
    ensures !IsExpired(s, now) ==> r == Refreshed(s, None, None, Success(()))
    ensures IsExpired(s, now) ==> r.sent == Some(s.refreshToken)
    ensures IsExpired(s, now) && exchange.None? ==>
      r.session == s && r.write.None? && r.status == Failure(InternalServerError)
    ensures IsExpired(s, now) && exchange.Some? ==>
      && r.session.accessToken == exchange.value.accessToken
      && (exchange.value.refreshToken.Some? ==> r.session.refreshToken == exchange.value.refreshToken.value)
      && (exchange.value.refreshToken.None? ==> r.session.refreshToken == s.refreshToken)
      && r.session.expiresAt == now + exchange.value.expiresIn
      && r.session.spotifyId == s.spotifyId
      && (r.status.Success? <==> writeOk)
      && r.write.Some? && r.write.value.expiresIn == exchange.value.expiresIn
    ensures r.write.Some? ==> IsExpired(s, now) && exchange.Some?
    ensures r.write.Some? ==>
      && r.write.value.spotifyId == r.session.spotifyId
      && r.write.value.accessToken == r.session.accessToken
      && r.write.value.refreshToken == Some(r.session.refreshToken)
      && r.session.expiresAt == now + r.write.value.expiresIn
    ensures r.status.Failure? ==> r.status.error == InternalServerError
  {
    if !IsExpired(s, now) then Refreshed(s, None, None, Success(()))
    else
      match exchange
      case None => Refreshed(s, Some(s.refreshToken), None, Failure(InternalServerError))
      case Some(response) =>
        var refreshToken := if response.refreshToken.Some? then response.refreshToken.value else s.refreshToken;
        var session := Session(response.accessToken, refreshToken, now + response.expiresIn, s.spotifyId);
        var write := UserUpdate(s.spotifyId, response.accessToken, Some(refreshToken), response.expiresIn);
        Refreshed(session, Some(s.refreshToken), Some(write), if writeOk then Success(()) else Failure(InternalServerError))
  }

  /**
   A refresh that obtained a token valid for a positive time leaves a session
   that the next refresh, at the same instant, does not touch.
   */
  lemma RefreshedSessionIsFresh(s: Session, now: Instant, exchange: Option<TokenResponse>, writeOk: bool, exchange': Option<TokenResponse>, writeOk': bool)
    requires exchange.Some? && 0 < exchange.value.expiresIn
    ensures
      var r := Refresh(s, now, exchange, writeOk);
      && !IsExpired(r.session, now)
      && Refresh(r.session, now, exchange', writeOk') == Refreshed(r.session, None, None, Success(()))
  {
  }

  /** The refresh token a session holds after `refresh` is one it was given: the old one or the endpoint's. */
  lemma RefreshNeverInventsToken(s: Session, now: Instant, exchange: Option<TokenResponse>, writeOk: bool)
    ensures
      var r := Refresh(s, now, exchange, writeOk);
      || r.session.refreshToken == s.refreshToken
      || (exchange.Some? && exchange.value.refreshToken == Some(r.session.refreshToken))
  {
  }

  /**
   The classification in `get` of a failed status: 401 is an invalid token,
   429 is rate limiting, anything else is passed on, and a missing status
   counts as 500.
   */
  function ClassifyStatus(status: Option<StatusCode>): (e: SpotifyError)
    ensures e == InvalidToken <==> status == Some(Unauthorized)
    ensures e == RateLimited <==> status == Some(TooManyRequests)
    ensures e.Other? <==> status != Some(Unauthorized) && status != Some(TooManyRequests)
    ensures e.Other? && status.Some? ==> e.status == status.value
    ensures e.Other? && status.None? ==> e.status == InternalServerError
    ensures e != BadOauthRequest
  {
    if status == Some(Unauthorized) then InvalidToken
    else if status == Some(TooManyRequests) then RateLimited
    else if status.Some? then Other(status.value)
    else Other(InternalServerError)
  }

  /** The API's answer to a GET: the request could not be sent, or a status with a body that parses as `T` or not. */
  datatype Reply<T> = SendFailed | Response(status: StatusCode, body: Option<T>)

  /** What `get` did: the session afterwards, the bearer token it sent (if it sent a request), and its answer. */
  datatype Got<T> = Got(session: Session, bearer: Option<string>, result: Result<T, SpotifyError>)

  /**
   `get`: refresh an expired token first (a failed refresh is
   `BadOauthRequest`), send the request with the current access token, and
   classify the answer.
   */
  function Get<T>(s: Session, now: Instant, exchange: Option<TokenResponse>, writeOk: bool, reply: Reply<T>): (g: Got<T>)
    ensures g.result == Failure(BadOauthRequest) <==> IsExpired(s, now) && Refresh(s, now, exchange, writeOk).status.Failure?
    ensures g.result == Failure(BadOauthRequest) ==> g.bearer.None?
    ensures g.bearer.Some? ==> g.bearer.value == g.session.accessToken
    ensures g.bearer.Some? <==> !(IsExpired(s, now) && Refresh(s, now, exchange, writeOk).status.Failure?)
    ensures !IsExpired(s, now) ==> g.session == s && g.bearer == Some(s.accessToken)
    ensures IsExpired(s, now) ==> g.session == Refresh(s, now, exchange, writeOk).session
    ensures g.result == Failure(InvalidToken) <==> g.bearer.Some? && reply.Response? && reply.status == Unauthorized
    ensures g.result == Failure(RateLimited) <==> g.bearer.Some? && reply.Response? && reply.status == TooManyRequests
    ensures g.result.Success? <==>
      g.bearer.Some? && reply.Response? && !IsErrorStatus(reply.status) && reply.body.Some?
    ensures g.result.Success? ==> g.result.value == reply.body.value
    ensures g.bearer.Some? && reply.Response? && IsErrorStatus(reply.status) ==>
      g.result == Failure(ClassifyStatus(Some(reply.status)))
    ensures g.bearer.Some? && (reply.SendFailed? || (reply.Response? && !IsErrorStatus(reply.status) && reply.body.None?)) ==>
      g.result == Failure(Other(InternalServerError))
  {
    var refreshed := Refresh(s, now, exchange, writeOk);
    if IsExpired(s, now) && refreshed.status.Failure? then
      Got(refreshed.session, None, Failure(BadOauthRequest))
    else
      var current := refreshed.session;
      var result: Result<T, SpotifyError> :=
        match reply
        case SendFailed => Failure(Other(InternalServerError))
        case Response(status, body) =>
          if IsErrorStatus(status) then Failure(ClassifyStatus(Some(status)))
          else if body.None? then Failure(Other(InternalServerError))
          else Success(body.value);
      Got(current, Some(current.accessToken), result)
  }
}

=== FILE: wrappers.dfy ===
/**
 The failure-carrying datatypes shared by the handlers: `Option` for Rust's
 `Option<T>` and `Result` for Rust's `Result<T, E>`.
 */
module Wrappers {

  datatype Option<+T> = None | Some(value: T)

  datatype Result<+R, +E> = Success(value: R) | Failure(error: E)
}
